=== FILE: README.md ===
# Feedback widget: store, listing and analytics

A model of the logic inside `script.js`, the single script behind a
customer-feedback page. The page keeps an array of feedback records
(`feedbackData`), mirrors it into browser storage under one key, lists it
newest first with optional filters, and summarises it on an analytics tab.
The model lifts that logic out of the DOM handlers as pure functions over
`seq<Record>`:

- `Records`: the record type, the rating range 1..5, and the per-field
  projections and counts shared by the other modules.
- `Listing`: the two-stage AND filter of `filterFeedback`, and the stable
  newest-first sort of `displayFeedback`. It also gives each of them a
  reference meaning: a one-pass filter (`Where`) and a characterisation of
  stable sorts (`StableSortOf`).
- `Analytics`: what `updateAnalytics` computes. This is the total, the rating
  sum behind the average, the per-service tally in key-insertion order, the
  top service chosen by the `reduce` (characterised as the last maximum,
  `Analytics.IsLastMaximum`), and the five-slot rating histogram.
- `Store`: the page state. It holds the live collection, the stored copy
  (`None` when the key is absent) and the selected star. Transitions cover
  start-up, star clicks, submit, confirmed clear, the listing views and tab
  switches, plus runs of such events.
- `Stars`: the star highlight mask.
- `Scenarios`: concrete sessions worked through the model.

Two behaviours of the code are kept as written:

- Among services tied for the most records, the top service is the LAST
  key in the tally's order. The `reduce` keeps its accumulator only when
  the accumulator is strictly greater.
- `displayFeedback()` with its default argument sorts the live array in
  place. `filterFeedback` with no filter set passes that same array.
  - So after each submit the live collection is reordered newest first,
    while the stored copy keeps the order it had when it was written.
  - The two therefore agree as multisets, not as sequences (`Store.MirrorAgrees`).
  - The order matters for analytics: after two submits of different
    services, the tally meets the newer service first, and the tie goes to
    the service submitted first (`Scenarios.TieGoesToFirstSubmitted`).

## Model

| member | source | states |
|---|---|---|
| Store.Load | script.js:1 | reading the key gives the stored records when the key is present and the empty collection when it is absent |
| Store.Start | script.js:1-2 | the page starts with no star selected, the stored copy as found, and a live collection that is exactly the stored records, or empty when the key is absent |
| Store.Boot | script.js:1-2 | after start-up and the initial listing (script.js:227) nothing is selected, the stored copy is untouched, and the live collection is the stable newest-first sort of the loaded records |
| Store.ClickStar | script.js:6-10 | a star click selects that star's rating and leaves the collection and the stored copy alone |
| Store.Submit | script.js:31-62 | with no star selected nothing changes; otherwise exactly one record with the given fields is appended, earlier records are untouched, the stored copy equals the new collection and the selection is reset to 0 |
| Store.HandleSubmit | script.js:28-66 | a rejected submit changes nothing; an accepted one stores the old collection plus the new record, and leaves the live collection as the stable newest-first sort of it |
| Store.ClearData | script.js:122-140 | a confirmed clear empties the collection and removes the key; a dismissed dialog changes nothing |
| Store.ShowAll | script.js:80-93 | listing without filters shows the live collection, now sorted newest first and stably, with the same records |
| Store.ApplyFilters | script.js:110-119 | the listing is the stable newest-first sort of the matching records; with a filter set the state is untouched; without one the live collection keeps its records and becomes the listing itself, since the live array was sorted in place |
| Store.Step | script.js:69-78 | a star click changes only the selection; switching to a tab other than the listing changes nothing; switching to the listing sorts the live collection stably newest first; no event other than a submit or a clear touches the stored copy or the collection's records |
| Store.RunKeepsMirrorAgreement | script.js:49-50 | across any sequence of user actions the live collection and the stored copy hold the same records |
| Store.BootRatingsValid | script.js:1-2 | when the stored records are rated 1..5, the page after start-up and the initial listing holds only such records, with the same stored copy and no star selected |
| Store.RunKeepsRatingsValid | script.js:41-49 | starting from a state whose records, stored copy and selection carry ratings in 1..5, and with every click coming from one of the five stars, every record ever held has a rating in 1..5 |
| Store.ClearThenReload | script.js:133-134 | after a confirmed clear the key is absent and a reload starts from the empty collection |
| Store.SubmitThenReload | script.js:49-65 | right after a submit the stored copy is the live collection; after the listing that follows, the live collection is the stable newest-first sort of the stored copy |
| Listing.OfService | script.js:116 | the service stage keeps only records of the chosen service, each drawn from the input, and never lengthens the list |
| Listing.OfRating | script.js:117 | the rating stage keeps only records with exactly the chosen rating, each drawn from the input, and never lengthens the list |
| Listing.FilterFeedback | script.js:110-117 | the two-stage filter as written returns only input records that match every filter that is set, never more records than the input |
| Listing.Where | script.js:114-117 | every record kept matches both filters |
| Listing.FilterFeedbackMeaning | script.js:110-117 | the filtered list holds exactly the input records that match the service filter (if set) and the rating filter (if set), each as often as in the input, in input order |
| Listing.FilterIsConjunction | script.js:114-117 | narrowing by service and then by rating equals one pass with both filters |
| Listing.FilterWithoutFiltersIsIdentity | script.js:114-117 | with neither filter set the result is the whole input |
| Listing.FilterIdempotent | script.js:114-117 | filtering an already filtered list with the same filters changes nothing |
| Listing.SortByIdDesc | script.js:93 | the sorted list is a permutation of its input, ids never increase along it, and records with equal ids keep their input order |
| Listing.SortIsTheStableSort | script.js:93 | any stable newest-first arrangement of the input is the sorted list, so the display order is fixed by ids and input order |
| Listing.Display | script.js:83-93 | what is rendered is the stable newest-first sort of the array passed in, empty for an empty array |
| Analytics.Bump | script.js:156 | counting one record raises the count of an existing key where it stands and leaves the others alone, or adds the new key last with count 1; keys stay distinct |
| Analytics.ServiceCounts | script.js:161-165 | the tally built record by record never holds a key twice |
| Analytics.TallyKeysAreServices | script.js:161-165 | a service is a key of the tally exactly when some record carries it |
| Analytics.TallyCountsOccurrences | script.js:161-165 | each count is the number of records of its service, hence positive |
| Analytics.TallySumIsTotal | script.js:161-165 | the counts add up to the number of records |
| Analytics.KeysInFirstAppearanceOrder | script.js:161-165 | tally keys are in the order of each service's first record |
| Analytics.TopIndex | script.js:157 | the chosen entry has the largest count and every later entry has a strictly smaller one, so among equal maxima the last is chosen |
| Analytics.TopOfTallyIsLastMaximum | script.js:155-157 | for a non-empty collection the tally is non-empty and the entry the reduce keeps belongs to the last maximum: the service with the most records, every other service with as many having its first record earlier |
| Analytics.LastMaximumIsUnique | script.js:157 | the last maximum of a collection is a single service, so the reduce's choice is fully determined by the counts and the order of first records |
| Analytics.TopService | script.js:155-158 | for a non-empty collection the service shown on the top card is the last maximum |
| Analytics.Histogram | script.js:162-166 | the model's histogram always has exactly five slots; for ratings in 1..5 that is the array handed to the pie chart, and the script's behaviour for other ratings is described under "Left out" |
| Analytics.HistogramCountsRatings | script.js:162-166 | slot k of the five-slot histogram counts the records rated k + 1, zeros included |
| Analytics.HistogramAccountsForAll | script.js:162-166 | with ratings in 1..5 the slots sum to the total, and weighting each slot by its rating gives the rating sum behind the average |
| Analytics.RatingSum | script.js:152 | with ratings in 1..5 the rating sum behind the average lies between the total and 5 times the total, so the average lies in [1, 5] |
| Analytics.Summarize | script.js:145-159 | an empty collection shows total 0, "0.0" and "-"; otherwise the total, the mean of the ratings, and the last maximum as top service |
| Analytics.UpdateAnalytics | script.js:144-167 | the report carries the summary above; its service tally has distinct keys, exactly the services present, in the order of their first records, each with its number of records, and counts summing to the total; its five rating slots count each rating and sum to the total when ratings are valid |
| Stars.StarMask | script.js:22-26 | one entry per star, and lit stars form a prefix |
| Stars.LitStarsAreLeading | script.js:22-26 | star i is lit exactly when i is below the rating, so the number lit is the rating clamped to the row |
| Scenarios.ThreeSubmitsFromEmpty | script.js:28-66 | three submits from an empty store leave the page listing newest first, while the stored copy keeps the order of the last write |
| Scenarios.AnalyticsOfThreeSubmits | script.js:144-167 | for that page: three records, rating sum 12 of 3, "Support" on top, histogram [0, 0, 1, 1, 1], and the Support listing newest first |
| Scenarios.TieGoesToFirstSubmitted | script.js:155-157 | two submits of different services end with the newer record first, and the tie then goes to the service submitted first |

## Left out

- DOM, event wiring and UI: element queries, `innerHTML` templates, the
  hover effect, tab highlighting and the form reset are not modelled.
  Switching to the analytics tab only reads the collection.
- SweetAlert dialogs are foreign calls. The clear confirmation is a boolean
  parameter of `Store.ClearData`.
- Chart.js construction and destruction are foreign calls. The model stops
  at the data handed to the charts.
- `localStorage` and JSON: the stored copy is an `Option<seq<Record>>`.
  Stored text that does not parse makes the first line of the script throw.
  The model has no recovery path for it.
- `Date.now()` and `new Date().toISOString()` are parameters of the submit.
  Ids are not assumed unique, since two submits in the same millisecond
  share one.
- Store.RunKeepsMirrorAgreement: the model assumes this page is the only
  writer of the storage key. Other tabs of the same origin share the key,
  and the script reads it only at start-up (script.js:1) and has no
  listener for changes made elsewhere. If two open tabs each submit, the
  later write replaces the key with that tab's collection, and the other
  tab's live collection no longer agrees with the stored copy.
- Store.Submit: the storage write is modelled as one that always succeeds.
  In the script the push happens before the write (script.js:49-50). A
  failing write, for instance one over the storage quota, throws: the live
  collection then holds the new record, the stored copy stays as it was,
  and the selection reset and the listing (script.js:52-66) do not run.
  `Store.RunKeepsMirrorAgreement` holds only under that assumption.
- The form fields are parameters. The submit checks only that a star is
  selected: it checks neither the service nor the rating range.
- `toFixed(1)`: the average is kept as an exact sum and count
  (`Analytics.Mean`); the rounded string is not modelled.
- `Object.keys` lists integer-like keys first, in numeric order. The model
  assumes service names are not integer-like, so key order is insertion
  order.
- Analytics.Bump: the tallies are plain objects, so a service name that is
  a property of `Object.prototype` behaves differently in the script.
  `"__proto__"` never becomes a key, and when every record has it the
  `reduce` over no keys throws. `"toString"` or `"constructor"` get a string
  count built from the inherited function. The model assumes no service is
  named after such a property. The same assumption underlies
  `Analytics.ServiceCounts`, `Analytics.TallyKeysAreServices`,
  `Analytics.TallyCountsOccurrences`, `Analytics.TopService` and
  `Analytics.UpdateAnalytics`.
- Analytics.Histogram: a rating outside 1..5 leaves the five slots
  unchanged. In the script a rating of 0 or less writes a property such as
  `"-1"` that is not an array index, which the chart ignores. A rating of 6
  or more writes `NaN` at array index `rating - 1`: the array grows past
  five entries, with holes between index 4 and the new entry when the
  rating is 7 or more, and the pie chart receives that longer array.
- The rating filter value after `parseInt` is an `Option<int>`. `None`
  stands for the empty select value.
- The comparator `b.id - a.id` is modelled as integer comparison. That is
  exact for clock values, which are far below 2^53.
- The language's sort is stable. The model's sort is a stable insertion
  sort, and `Listing.SortIsTheStableSort` shows that every stable sort gives
  the same order.

=== FILE: analytics.dfy ===
/** The analytics tab (`updateAnalytics`, script.js:144-167): the total, the
    rating sum behind the average, the per-service tally behind the bar chart
    and the top service, and the five-slot rating histogram behind the pie
    chart. Every function here is a pure function of the collection. */
module Analytics {
  import opened Records

  /*** Per-service tally (script.js:155-156, 161-165) ***/

  /** One property of the plain object `counts`: a service name and how many
      records carry it. A sequence of tallies keeps the object's key
      insertion order. */
  datatype Tally = Tally(service: string, count: nat)

  /** The keys of the tally object, in insertion order. */
  function Keys(c: seq<Tally>): (ks: seq<string>)
    ensures |ks| == |c|
    ensures forall i :: 0 <= i < |c| ==> ks[i] == c[i].service
  {
    seq(|c|, i requires 0 <= i < |c| => c[i].service)
  }

  /** An object never holds the same key twice. */
  predicate DistinctKeys(c: seq<Tally>) {
    forall i, j :: 0 <= i < j < |c| ==> c[i].service != c[j].service
  }

  /** The sum of the tally's counts. */
  function CountSum(c: seq<Tally>): nat {
    if |c| == 0 then 0 else c[0].count + CountSum(c[1..])
  }

  /** Counting one record of `svc` (script.js:156, 165): an existing key is
      incremented where it stands, a new key is added last with count one. */
  function Bump(c: seq<Tally>, svc: string): (r: seq<Tally>)
    requires DistinctKeys(c)
    ensures DistinctKeys(r)
    ensures |r| == if svc in Keys(c) then |c| else |c| + 1
    ensures forall i :: 0 <= i < |c| ==>
      r[i].service == c[i].service && r[i].count == c[i].count + if c[i].service == svc then 1 else 0
    ensures svc !in Keys(c) ==> r[|c|] == Tally(svc, 1)
  {
    if svc in Keys(c) then Increment(c, svc) else Increment(c, svc) + [Tally(svc, 1)]
  }

  /** The entries of `c` with the count of `svc`, if present, raised by one. */
  function Increment(c: seq<Tally>, svc: string): (r: seq<Tally>)
    ensures |r| == |c|
  {
    seq(|c|, i requires 0 <= i < |c| =>
      if c[i].service == svc then Tally(svc, c[i].count + 1) else c[i])
  }

  lemma BumpKeys(c: seq<Tally>, svc: string)
    requires DistinctKeys(c)
    ensures Keys(Bump(c, svc)) == if svc in Keys(c) then Keys(c) else Keys(c) + [svc]
  {
    var r := Bump(c, svc);
    var ks := if svc in Keys(c) then Keys(c) else Keys(c) + [svc];
    assert |Keys(r)| == |ks|;
    forall i | 0 <= i < |ks| ensures Keys(r)[i] == ks[i] {
    }
  }

  /** Bumping the service of the head entry changes only that entry. */
  lemma BumpHead(c: seq<Tally>, svc: string)
    requires DistinctKeys(c) && |c| > 0 && c[0].service == svc
    ensures Bump(c, svc) == [Tally(svc, c[0].count + 1)] + c[1..]
  {
    var r := Bump(c, svc);
    assert Keys(c)[0] == svc;
    forall i | 0 < i < |r| ensures r[i] == c[i] {
      assert c[0].service != c[i].service;
    }
  }

  /** Bumping any other service leaves the head entry and bumps the rest. */
  lemma BumpTail(c: seq<Tally>, svc: string)
    requires DistinctKeys(c) && |c| > 0 && c[0].service != svc
    ensures Bump(c, svc) == [c[0]] + Bump(c[1..], svc)
  {
    assert svc in Keys(c) <==> svc in Keys(c[1..]) by {
      assert Keys(c) == [c[0].service] + Keys(c[1..]);
    }
    IncrementTail(c, svc);
    if svc !in Keys(c) {
      assert ([c[0]] + Increment(c[1..], svc)) + [Tally(svc, 1)]
          == [c[0]] + (Increment(c[1..], svc) + [Tally(svc, 1)]);
    }
  }

  lemma IncrementTail(c: seq<Tally>, svc: string)
    requires |c| > 0 && c[0].service != svc
    ensures Increment(c, svc) == [c[0]] + Increment(c[1..], svc)
  {
    var r, q := Increment(c, svc), Increment(c[1..], svc);
    forall i | 0 < i < |r| ensures r[i] == q[i - 1] {
      assert c[i] == c[1..][i - 1];
    }
  }

  lemma {:induction false} BumpCountSum(c: seq<Tally>, svc: string)
    requires DistinctKeys(c)
    ensures CountSum(Bump(c, svc)) == CountSum(c) + 1
    decreases |c|
  {
    if |c| == 0 {
      assert Bump(c, svc) == [Tally(svc, 1)];
    } else {
      if c[0].service != svc {
        BumpTail(c, svc);
        BumpCountSum(c[1..], svc);
        assert Bump(c, svc)[1..] == Bump(c[1..], svc);
      } else {
        BumpHead(c, svc);
        assert Bump(c, svc)[1..] == c[1..];
      }
    }
  }

  /** The `counts` object after the `forEach` over `xs`: the tally built
      record by record in collection order. */
  function ServiceCounts(xs: seq<Record>): (c: seq<Tally>)
    ensures DistinctKeys(c)
  {
    if |xs| == 0 then []
    else Bump(ServiceCounts(xs[..|xs| - 1]), xs[|xs| - 1].serviceType)
  }

  /** Splits `xs` into the prefix the tally has already seen and the record
      it adds last. */
  lemma LastStep(xs: seq<Record>)
    requires |xs| > 0
    ensures xs == xs[..|xs| - 1] + [xs[|xs| - 1]]
    ensures ServicesOf(xs) == ServicesOf(xs[..|xs| - 1]) + [xs[|xs| - 1].serviceType]
  {
    assert xs == xs[..|xs| - 1] + [xs[|xs| - 1]];
    ServicesOfAppend(xs[..|xs| - 1], xs[|xs| - 1]);
  }

  /** A service is a key of the tally exactly when some record carries it. */
  lemma {:induction false} TallyKeysAreServices(xs: seq<Record>)
    ensures forall svc :: svc in Keys(ServiceCounts(xs)) <==> svc in ServicesOf(xs)
    decreases |xs|
  {
    if |xs| > 0 {
      var init, t := xs[..|xs| - 1], xs[|xs| - 1].serviceType;
      LastStep(xs);
      TallyKeysAreServices(init);
      BumpKeys(ServiceCounts(init), t);
    }
  }

  /** Tally entry `i` is the number of records of its service. */
  ghost predicate EntryCounted(xs: seq<Record>, i: int)
    requires 0 <= i < |ServiceCounts(xs)|
  {
    ServiceCounts(xs)[i].count == Occurrences(xs, ServiceCounts(xs)[i].service)
  }

  /** One tally entry after the record `x` has been counted, given that the
      entries before it were right. */
  lemma TallyCountStep(init: seq<Record>, x: Record, i: int)
    requires forall k :: 0 <= k < |ServiceCounts(init)| ==> EntryCounted(init, k)
    requires 0 <= i < |ServiceCounts(init + [x])|
    ensures EntryCounted(init + [x], i)
  {
    var xs, t := init + [x], x.serviceType;
    assert xs[..|xs| - 1] == init;
    var prev, c := ServiceCounts(init), ServiceCounts(xs);
    var ss := ServicesOf(init);
    assert c == Bump(prev, t);
    ServicesOfAppend(init, x);
    assert multiset(ServicesOf(xs)) == multiset(ss) + multiset{t};
    if i < |prev| {
      var svc := prev[i].service;
      assert EntryCounted(init, i);
      assert c[i].service == svc;
      assert Occurrences(xs, svc) == multiset(ss)[svc] + if svc == t then 1 else 0;
    } else {
      assert t !in Keys(prev);
      assert t !in ss by {
        TallyKeysAreServices(init);
      }
      assert multiset(ss)[t] == 0;
    }
  }

  lemma {:induction false} AllEntriesCounted(xs: seq<Record>)
    ensures forall i :: 0 <= i < |ServiceCounts(xs)| ==> EntryCounted(xs, i)
    decreases |xs|
  {
    if |xs| > 0 {
      var init := xs[..|xs| - 1];
      AllEntriesCounted(init);
      assert xs == init + [xs[|xs| - 1]];
      forall i | 0 <= i < |ServiceCounts(xs)| ensures EntryCounted(xs, i) {
        TallyCountStep(init, xs[|xs| - 1], i);
      }
    }
  }

  /** Each tallied count is the number of records of that service, so every
      count is positive. */
  lemma TallyCountsOccurrences(xs: seq<Record>)
    ensures forall i :: 0 <= i < |ServiceCounts(xs)| ==>
      ServiceCounts(xs)[i].count == Occurrences(xs, ServiceCounts(xs)[i].service) > 0
  {
    var c := ServiceCounts(xs);
    AllEntriesCounted(xs);
    TallyKeysAreServices(xs);
    forall i | 0 <= i < |c| ensures c[i].count == Occurrences(xs, c[i].service) > 0 {
      assert EntryCounted(xs, i);
      assert Keys(c)[i] == c[i].service;
      assert c[i].service in multiset(ServicesOf(xs));
    }
  }

  /** The counts add up to the number of records. */
  lemma {:induction false} TallySumIsTotal(xs: seq<Record>)
    ensures CountSum(ServiceCounts(xs)) == |xs|
    decreases |xs|
  {
    if |xs| > 0 {
      LastStep(xs);
      TallySumIsTotal(xs[..|xs| - 1]);
      BumpCountSum(ServiceCounts(xs[..|xs| - 1]), xs[|xs| - 1].serviceType);
    }
  }

  /** Position of the first record of service `svc`. */
  function FirstIndex(ss: seq<string>, svc: string): (k: nat)
    requires svc in ss
    ensures k < |ss| && ss[k] == svc
    ensures forall j :: 0 <= j < k ==> ss[j] != svc
  {
    if ss[0] == svc then 0 else 1 + FirstIndex(ss[1..], svc)
  }

  lemma FirstIndexAppend(ss: seq<string>, t: string, svc: string)
    requires svc in ss + [t]
    ensures svc in ss ==> FirstIndex(ss + [t], svc) == FirstIndex(ss, svc)
    ensures svc !in ss ==> FirstIndex(ss + [t], svc) == |ss|
  {
    var a := FirstIndex(ss + [t], svc);
    if svc in ss {
      var b := FirstIndex(ss, svc);
      assert (ss + [t])[b] == svc;
    }
  }

  /** Tally entries `i < j` belong to services that first occur in that
      order. */
  ghost predicate KeysOrdered(xs: seq<Record>, i: int, j: int)
    requires 0 <= i < j < |ServiceCounts(xs)|
  {
    var c, ss := ServiceCounts(xs), ServicesOf(xs);
    c[i].service in ss && c[j].service in ss && FirstIndex(ss, c[i].service) < FirstIndex(ss, c[j].service)
  }

  lemma KeysOrderStep(init: seq<Record>, x: Record, i: int, j: int)
    requires forall a, b :: 0 <= a < b < |ServiceCounts(init)| ==> KeysOrdered(init, a, b)
    requires 0 <= i < j < |ServiceCounts(init + [x])|
    ensures KeysOrdered(init + [x], i, j)
  {
    var xs, t := init + [x], x.serviceType;
    var prev, c := ServiceCounts(init), ServiceCounts(xs);
    var ss := ServicesOf(init);
    assert c == Bump(prev, t) by {
      assert xs[..|xs| - 1] == init;
    }
    assert ServicesOf(xs) == ss + [t] by {
      ServicesOfAppend(init, x);
    }
    assert i < |prev|;
    var si, sj := c[i].service, c[j].service;
    assert si == prev[i].service;
    assert si in ss by {
      TallyKeysAreServices(init);
      assert Keys(prev)[i] == si;
    }
    FirstIndexAppend(ss, t, si);
    if j < |prev| {
      assert sj == prev[j].service;
      assert sj in ss by {
        TallyKeysAreServices(init);
        assert Keys(prev)[j] == sj;
      }
      assert KeysOrdered(init, i, j);
      FirstIndexAppend(ss, t, sj);
    } else {
      assert sj == t;
      assert t !in ss by {
        assert t !in Keys(prev);
        TallyKeysAreServices(init);
      }
      FirstIndexAppend(ss, t, t);
    }
  }

  /** The keys of the tally appear in the order their services first occur
      in the collection (the script's insertion order). */
  lemma {:induction false} KeysInFirstAppearanceOrder(xs: seq<Record>)
    ensures forall i, j :: 0 <= i < j < |ServiceCounts(xs)| ==> KeysOrdered(xs, i, j)
    decreases |xs|
  {
    if |xs| > 0 {
      var init := xs[..|xs| - 1];
      KeysInFirstAppearanceOrder(init);
      assert xs == init + [xs[|xs| - 1]];
      forall i, j | 0 <= i < j < |ServiceCounts(xs)| ensures KeysOrdered(xs, i, j) {
        KeysOrderStep(init, xs[|xs| - 1], i, j);
      }
    }
  }

  /*** Top service (script.js:157) ***/

  /** The reduce over the tally's keys (script.js:157), as a position in
      key order: the accumulator starts at the first key and moves to the
      next key unless the accumulator's count is strictly larger, so a later
      key wins every tie. */
  function TopIndex(c: seq<Tally>): (t: nat)
    requires |c| > 0
    ensures t < |c|
    ensures forall j :: 0 <= j < |c| ==> c[j].count <= c[t].count
    ensures forall j :: t < j < |c| ==> c[j].count < c[t].count
  {
    if |c| == 1 then 0
    else
      var a := TopIndex(c[..|c| - 1]);
      var b := |c| - 1;
      if c[a].count > c[b].count then a else b
  }

  /*** Ratings (script.js:152, 162, 166) ***/

  /** The rating total the average divides (script.js:152): a left fold
      adding each record's rating. With ratings in 1..5 it lies between
      `total` and `5 * total`, so the displayed average lies in [1, 5]. */
  function RatingSum(xs: seq<Record>): (sum: int)
    ensures AllRatingsValid(xs) ==> MinRating * |xs| <= sum <= MaxRating * |xs|
  {
    if |xs| == 0 then 0
    else
      var init := xs[..|xs| - 1];
      assert AllRatingsValid(xs) ==> AllRatingsValid(init) && ValidRating(xs[|xs| - 1].rating) by {
        if AllRatingsValid(xs) {
          PrefixRatingsValid(xs);
        }
      }
      RatingSum(init) + xs[|xs| - 1].rating
  }

  /** Number of histogram slots: one per star rating. */
  const Slots: nat := 5

  /** `ratingCounts` after the `forEach`: slot `k` is bumped by each record of
      rating `k + 1`; a rating outside 1..5 touches none of the five
      slots. */
  function Histogram(xs: seq<Record>): (h: seq<nat>)
    ensures |h| == Slots
  {
    if |xs| == 0 then [0, 0, 0, 0, 0]
    else
      var h := Histogram(xs[..|xs| - 1]);
      var rating := xs[|xs| - 1].rating;
      if ValidRating(rating) then h[rating - 1 := h[rating - 1] + 1] else h
  }

  /** Slot `k` holds the number of records rated `k + 1`. */
  lemma {:induction false} HistogramCountsRatings(xs: seq<Record>)
    ensures forall k :: 0 <= k < Slots ==> Histogram(xs)[k] == RatingCount(xs, k + 1)
    decreases |xs|
  {
    if |xs| > 0 {
      var init, last := xs[..|xs| - 1], xs[|xs| - 1];
      HistogramCountsRatings(init);
      assert xs == init + [last];
      RatingsOfAppend(init, last);
      assert multiset(RatingsOf(xs)) == multiset(RatingsOf(init)) + multiset{last.rating};
    }
  }

  function SlotSum(h: seq<nat>): nat
    requires |h| == Slots
  {
    h[0] + h[1] + h[2] + h[3] + h[4]
  }

  /** Rating sum recomputed from the histogram: each slot weighted by its
      rating. */
  function WeightedSlotSum(h: seq<nat>): nat
    requires |h| == Slots
  {
    1 * h[0] + 2 * h[1] + 3 * h[2] + 4 * h[3] + 5 * h[4]
  }

  /** With every rating in 1..5 the five slots account for every record, and
      weighting them by rating gives back the rating sum. */
  lemma {:induction false} HistogramAccountsForAll(xs: seq<Record>)
    requires AllRatingsValid(xs)
    ensures SlotSum(Histogram(xs)) == |xs|
    ensures WeightedSlotSum(Histogram(xs)) == RatingSum(xs)
    decreases |xs|
  {
    if |xs| > 0 {
      var init, last := xs[..|xs| - 1], xs[|xs| - 1];
      PrefixRatingsValid(xs);
      HistogramAccountsForAll(init);
      var h, r := Histogram(init), last.rating;
      assert Histogram(xs) == h[r - 1 := h[r - 1] + 1];
      assert RatingSum(xs) == RatingSum(init) + r;
      SlotBump(h, r);
    }
  }

  lemma PrefixRatingsValid(xs: seq<Record>)
    requires |xs| > 0 && AllRatingsValid(xs)
    ensures AllRatingsValid(xs[..|xs| - 1]) && ValidRating(xs[|xs| - 1].rating)
  {
    var init := xs[..|xs| - 1];
    forall i | 0 <= i < |init| ensures ValidRating(init[i].rating) {
      assert init[i] == xs[i];
    }
  }

  /** Adding one to the slot of a valid rating adds one record and that
      rating to the sums. */
  lemma SlotBump(h: seq<nat>, r: int)
    requires |h| == Slots && ValidRating(r)
    ensures SlotSum(h[r - 1 := h[r - 1] + 1]) == SlotSum(h) + 1
    ensures WeightedSlotSum(h[r - 1 := h[r - 1] + 1]) == WeightedSlotSum(h) + r
  {
  }

  /*** Summary (script.js:145-159) ***/

  /** What the average card shows: the literal text for an empty collection,
      otherwise the quotient `sum / count` that the script rounds with
      `toFixed(1)`. */
  datatype Average = Literal(text: string) | Mean(sum: int, count: nat)

  datatype Summary = Summary(total: nat, average: Average, topService: string)

  const ZeroAverageText: string := "0.0"
  const NoTopService: string := "-"

  /** `top` is a service of `xs` with the largest number of records, and
      every other service with as many records first occurs before it: the
      last of the tied services in first-appearance order. */
  ghost predicate IsLastMaximum(xs: seq<Record>, top: string) {
    && top in ServicesOf(xs)
    && (forall svc :: svc in ServicesOf(xs) ==> Occurrences(xs, svc) <= Occurrences(xs, top))
    && (forall svc :: svc in ServicesOf(xs) && svc != top && Occurrences(xs, svc) == Occurrences(xs, top) ==>
          FirstIndex(ServicesOf(xs), svc) < FirstIndex(ServicesOf(xs), top))
  }

  /** At most one service is the last maximum, so the rule fixes the card. */
  lemma LastMaximumIsUnique(xs: seq<Record>, a: string, b: string)
    requires IsLastMaximum(xs, a) && IsLastMaximum(xs, b)
    ensures a == b
  {
  }

  /** The entry the reduce picks from the tally is the last maximum. */
  lemma TopOfTallyIsLastMaximum(xs: seq<Record>)
    requires |xs| > 0
    ensures |ServiceCounts(xs)| > 0
    ensures IsLastMaximum(xs, ServiceCounts(xs)[TopIndex(ServiceCounts(xs))].service)
  {
    var c := ServiceCounts(xs);
    assert |c| > 0 by {
      TallyKeysAreServices(xs);
      assert xs[0].serviceType in ServicesOf(xs);
    }
    var t := TopIndex(c);
    var top := c[t].service;
    assert top in ServicesOf(xs) by {
      TallyKeysAreServices(xs);
      assert Keys(c)[t] == top;
    }
    forall svc | svc in ServicesOf(xs)
      ensures Occurrences(xs, svc) <= Occurrences(xs, top)
      ensures svc != top && Occurrences(xs, svc) == Occurrences(xs, top) ==>
        FirstIndex(ServicesOf(xs), svc) < FirstIndex(ServicesOf(xs), top)
    {
      assert svc in Keys(c) by {
        TallyKeysAreServices(xs);
      }
      var i :| 0 <= i < |c| && Keys(c)[i] == svc;
      assert c[i].service == svc;
      assert c[i].count == Occurrences(xs, svc) by {
        TallyCountsOccurrences(xs);
      }
      assert c[t].count == Occurrences(xs, top) by {
        TallyCountsOccurrences(xs);
      }
      if svc != top && Occurrences(xs, svc) == Occurrences(xs, top) {
        assert i < t;
        assert KeysOrdered(xs, i, t) by {
          KeysInFirstAppearanceOrder(xs);
        }
      }
    }
  }

  /** The service the top-service card shows for a non-empty collection
      (script.js:155-158). */
  function TopService(xs: seq<Record>): (top: string)
    requires |xs| > 0
    ensures IsLastMaximum(xs, top)
  {
    TopOfTallyIsLastMaximum(xs);
    var c := ServiceCounts(xs);
    c[TopIndex(c)].service
  }

  /** The three summary cards. */
  function Summarize(xs: seq<Record>): (s: Summary)
    ensures s.total == |xs|
    ensures |xs| == 0 ==> s.average == Literal(ZeroAverageText) && s.topService == NoTopService
    ensures |xs| > 0 ==> s.average == Mean(RatingSum(xs), |xs|) && IsLastMaximum(xs, s.topService)
  {
    if |xs| == 0 then Summary(0, Literal(ZeroAverageText), NoTopService)
    else Summary(|xs|, Mean(RatingSum(xs), |xs|), TopService(xs))
  }

  /*** The whole analytics tab ***/

  /** Everything `updateAnalytics` hands to the page and the charts. */
  datatype Report = Report(summary: Summary, serviceCounts: seq<Tally>, ratingCounts: seq<nat>)

  /** The entries of `c` follow the first appearance of their services in
      `xs`. */
  ghost predicate InFirstAppearanceOrder(xs: seq<Record>, c: seq<Tally>) {
    forall i, j :: 0 <= i < j < |c| ==>
      && c[i].service in ServicesOf(xs) && c[j].service in ServicesOf(xs)
      && FirstIndex(ServicesOf(xs), c[i].service) < FirstIndex(ServicesOf(xs), c[j].service)
  }

  function UpdateAnalytics(xs: seq<Record>): (r: Report)
    ensures r.summary.total == |xs|
    ensures |xs| == 0 ==> r.summary.average == Literal(ZeroAverageText) && r.summary.topService == NoTopService
    ensures |xs| > 0 ==> r.summary.average == Mean(RatingSum(xs), |xs|) && IsLastMaximum(xs, r.summary.topService)
    ensures DistinctKeys(r.serviceCounts)
    ensures forall svc :: svc in Keys(r.serviceCounts) <==> svc in ServicesOf(xs)
    ensures forall i :: 0 <= i < |r.serviceCounts| ==>
      r.serviceCounts[i].count == Occurrences(xs, r.serviceCounts[i].service)
    ensures InFirstAppearanceOrder(xs, r.serviceCounts)
    ensures CountSum(r.serviceCounts) == |xs|
    ensures |r.ratingCounts| == Slots
    ensures forall k :: 0 <= k < Slots ==> r.ratingCounts[k] == RatingCount(xs, k + 1)
    ensures AllRatingsValid(xs) ==> SlotSum(r.ratingCounts) == |xs|
  {
    var h := Histogram(xs);
    HistogramCountsRatings(xs);
    assert AllRatingsValid(xs) ==> SlotSum(h) == |xs| by {
      if AllRatingsValid(xs) {
        HistogramAccountsForAll(xs);
      }
    }
    var c := ServiceCounts(xs);
    TallySumIsTotal(xs);
    TallyKeysAreServices(xs);
    TallyCountsOccurrences(xs);
    assert InFirstAppearanceOrder(xs, c) by {
      KeysInFirstAppearanceOrder(xs);
      forall i, j | 0 <= i < j < |c|
        ensures && c[i].service in ServicesOf(xs) && c[j].service in ServicesOf(xs)
                && FirstIndex(ServicesOf(xs), c[i].service) < FirstIndex(ServicesOf(xs), c[j].service)
      {
        assert KeysOrdered(xs, i, j);
      }
    }
    Report(Summarize(xs), c, h)
  }
}

=== FILE: listing.dfy ===
/** The listing pipeline of the widget: the two-stage AND filter of
    `filterFeedback` and the newest-first sort that `displayFeedback` applies
    before rendering. */
module Listing {
  import opened Records

  /*** Filtering (script.js:110-117) ***/

  /** The service filter is a select value; the empty string is falsy in the
      script and means "no service filter". */
  predicate MatchesService(r: Record, serviceFilter: string) {
    serviceFilter == "" || r.serviceType == serviceFilter
  }

  /** The rating filter after `parseInt`; `None` stands for the empty select
      value, which means "no rating filter". */
  predicate MatchesRating(r: Record, ratingFilter: Option<int>) {
    ratingFilter.None? || r.rating == ratingFilter.value
  }

  /** A record is listed when it passes both filters. */
  predicate Matches(r: Record, serviceFilter: string, ratingFilter: Option<int>) {
    MatchesService(r, serviceFilter) && MatchesRating(r, ratingFilter)
  }

  /** `a` can be obtained from `b` by deleting elements: the order of `a` is
      the order the elements have in `b`. */
  ghost predicate Subsequence<T>(a: seq<T>, b: seq<T>)
    decreases |b|
  {
    |a| == 0 ||
    (|b| > 0 && ((a[0] == b[0] && Subsequence(a[1..], b[1..])) || Subsequence(a, b[1..])))
  }

  /** Reference meaning of the listing filter: a single pass keeping the
      records that satisfy both filters. */
  function Where(xs: seq<Record>, serviceFilter: string, ratingFilter: Option<int>): (w: seq<Record>)
    ensures forall i :: 0 <= i < |w| ==> Matches(w[i], serviceFilter, ratingFilter)
  {
    if |xs| == 0 then []
    else
      var rest := Where(xs[1..], serviceFilter, ratingFilter);
      if Matches(xs[0], serviceFilter, ratingFilter) then [xs[0]] + rest else rest
  }

  /** `Where` keeps each matching record as often as it occurs and drops
      every other record. */
  lemma {:induction false} WhereCounts(xs: seq<Record>, serviceFilter: string, ratingFilter: Option<int>)
    ensures forall r :: multiset(Where(xs, serviceFilter, ratingFilter))[r]
                     == if Matches(r, serviceFilter, ratingFilter) then multiset(xs)[r] else 0
    decreases |xs|
  {
    if |xs| > 0 {
      var w, rest := Where(xs, serviceFilter, ratingFilter), Where(xs[1..], serviceFilter, ratingFilter);
      WhereCounts(xs[1..], serviceFilter, ratingFilter);
      assert xs == [xs[0]] + xs[1..];
      assert multiset(xs) == multiset{xs[0]} + multiset(xs[1..]);
      if Matches(xs[0], serviceFilter, ratingFilter) {
        assert multiset(w) == multiset{xs[0]} + multiset(rest);
      }
    }
  }

  /** `Where` keeps input order. */
  lemma {:induction false} WhereKeepsOrder(xs: seq<Record>, serviceFilter: string, ratingFilter: Option<int>)
    ensures Subsequence(Where(xs, serviceFilter, ratingFilter), xs)
    decreases |xs|
  {
    if |xs| > 0 {
      var w, rest := Where(xs, serviceFilter, ratingFilter), Where(xs[1..], serviceFilter, ratingFilter);
      WhereKeepsOrder(xs[1..], serviceFilter, ratingFilter);
      if Matches(xs[0], serviceFilter, ratingFilter) {
        assert w[0] == xs[0] && w[1..] == rest;
      }
    }
  }

  /** The service stage of the filter (script.js:116): the records of
      service `svc`, drawn from `xs`. */
  function OfService(xs: seq<Record>, svc: string): (r: seq<Record>)
    ensures forall i :: 0 <= i < |r| ==> r[i].serviceType == svc && r[i] in xs
    ensures |r| <= |xs|
  {
    if |xs| == 0 then []
    else if xs[0].serviceType == svc then [xs[0]] + OfService(xs[1..], svc)
    else OfService(xs[1..], svc)
  }

  /** The rating stage of the filter (script.js:117): the records rated
      exactly `rating`, drawn from `xs`. */
  function OfRating(xs: seq<Record>, rating: int): (r: seq<Record>)
    ensures forall i :: 0 <= i < |r| ==> r[i].rating == rating && r[i] in xs
    ensures |r| <= |xs|
  {
    if |xs| == 0 then []
    else if xs[0].rating == rating then [xs[0]] + OfRating(xs[1..], rating)
    else OfRating(xs[1..], rating)
  }

  /** `filterFeedback` as written: start from the whole collection, narrow by
      service when a service is chosen, then by rating when a rating is
      chosen. */
  function FilterFeedback(xs: seq<Record>, serviceFilter: string, ratingFilter: Option<int>): (f: seq<Record>)
    ensures forall i :: 0 <= i < |f| ==> Matches(f[i], serviceFilter, ratingFilter) && f[i] in xs
    ensures |f| <= |xs|
  {
    var byService := if serviceFilter != "" then OfService(xs, serviceFilter) else xs;
    if ratingFilter.Some? then OfRating(byService, ratingFilter.value) else byService
  }

  /** True when neither filter is set: `filterFeedback` then hands the live
      collection itself, not a copy, to `displayFeedback`. */
  predicate NoFilter(serviceFilter: string, ratingFilter: Option<int>) {
    serviceFilter == "" && ratingFilter.None?
  }

  lemma {:induction false} OfServiceIsWhere(xs: seq<Record>, svc: string)
    requires svc != ""
    ensures OfService(xs, svc) == Where(xs, svc, None)
    decreases |xs|
  {
    if |xs| > 0 {
      OfServiceIsWhere(xs[1..], svc);
    }
  }

  lemma {:induction false} OfRatingIsWhere(xs: seq<Record>, rating: int)
    ensures OfRating(xs, rating) == Where(xs, "", Some(rating))
    decreases |xs|
  {
    if |xs| > 0 {
      OfRatingIsWhere(xs[1..], rating);
    }
  }

  lemma {:induction false} WhereWithoutFilters(xs: seq<Record>)
    ensures Where(xs, "", None) == xs
    decreases |xs|
  {
    if |xs| > 0 {
      WhereWithoutFilters(xs[1..]);
      assert xs == [xs[0]] + xs[1..];
    }
  }

  /** Narrowing by service and then by rating keeps what one pass with both
      filters keeps. */
  lemma {:induction false} WhereThenWhere(xs: seq<Record>, svc: string, ratingFilter: Option<int>)
    ensures Where(Where(xs, svc, None), "", ratingFilter) == Where(xs, svc, ratingFilter)
    decreases |xs|
  {
    if |xs| > 0 {
      WhereThenWhere(xs[1..], svc, ratingFilter);
    }
  }

  /** The two-stage filter of the script is exactly the AND of both filters:
      the records of the input that match, in input order. */
  lemma {:induction false} FilterIsConjunction(xs: seq<Record>, serviceFilter: string, ratingFilter: Option<int>)
    ensures FilterFeedback(xs, serviceFilter, ratingFilter) == Where(xs, serviceFilter, ratingFilter)
  {
    var byService := if serviceFilter != "" then OfService(xs, serviceFilter) else xs;
    if serviceFilter != "" {
      OfServiceIsWhere(xs, serviceFilter);
    } else {
      WhereWithoutFilters(xs);
    }
    assert byService == Where(xs, serviceFilter, None);
    if ratingFilter.Some? {
      OfRatingIsWhere(byService, ratingFilter.value);
    } else {
      WhereWithoutFilters(byService);
    }
    WhereThenWhere(xs, serviceFilter, ratingFilter);
  }

  /** The filtered listing: every listed record matches, each matching record
      of the input is listed as often as it occurs there, no other record is,
      and input order is kept. */
  lemma FilterFeedbackMeaning(xs: seq<Record>, serviceFilter: string, ratingFilter: Option<int>)
    ensures var f := FilterFeedback(xs, serviceFilter, ratingFilter);
      && (forall i :: 0 <= i < |f| ==> Matches(f[i], serviceFilter, ratingFilter))
      && (forall r :: multiset(f)[r] == if Matches(r, serviceFilter, ratingFilter) then multiset(xs)[r] else 0)
      && Subsequence(f, xs)
  {
    FilterIsConjunction(xs, serviceFilter, ratingFilter);
    WhereCounts(xs, serviceFilter, ratingFilter);
    WhereKeepsOrder(xs, serviceFilter, ratingFilter);
  }

  /** With no filter set the listing is the whole collection, in order. */
  lemma FilterWithoutFiltersIsIdentity(xs: seq<Record>)
    ensures FilterFeedback(xs, "", None) == xs
  {
  }

  lemma {:induction false} WhereIdempotent(xs: seq<Record>, serviceFilter: string, ratingFilter: Option<int>)
    ensures Where(Where(xs, serviceFilter, ratingFilter), serviceFilter, ratingFilter)
         == Where(xs, serviceFilter, ratingFilter)
    decreases |xs|
  {
    if |xs| > 0 {
      WhereIdempotent(xs[1..], serviceFilter, ratingFilter);
    }
  }

  /** Applying the same filters to an already filtered listing changes
      nothing. */
  lemma FilterIdempotent(xs: seq<Record>, serviceFilter: string, ratingFilter: Option<int>)
    ensures FilterFeedback(FilterFeedback(xs, serviceFilter, ratingFilter), serviceFilter, ratingFilter)
         == FilterFeedback(xs, serviceFilter, ratingFilter)
  {
    FilterIsConjunction(xs, serviceFilter, ratingFilter);
    FilterIsConjunction(FilterFeedback(xs, serviceFilter, ratingFilter), serviceFilter, ratingFilter);
    WhereIdempotent(xs, serviceFilter, ratingFilter);
  }

  /*** Sorting (script.js:93) ***/

  /** Newest first: ids never increase along the listing. */
  predicate SortedByIdDesc(xs: seq<Record>) {
    forall i, j :: 0 <= i < j < |xs| ==> xs[i].id >= xs[j].id
  }

  /** The records of `xs` whose id is `id`, in order: the blocks a stable sort
      by id must leave untouched. */
  function WithId(xs: seq<Record>, id: int): (w: seq<Record>)
    ensures forall r :: r in w ==> r in xs && r.id == id
  {
    if |xs| == 0 then []
    else if xs[0].id == id then [xs[0]] + WithId(xs[1..], id)
    else WithId(xs[1..], id)
  }

  /** `ys` is a stable descending-by-id arrangement of `xs`: sorted, and each
      block of equal ids appears in the order it has in `xs`. */
  ghost predicate StableSortOf(ys: seq<Record>, xs: seq<Record>) {
    SortedByIdDesc(ys) && forall id :: WithId(ys, id) == WithId(xs, id)
  }

  /** Places `x` in front of the first record whose id is not larger, so that
      `x` precedes the records with its id that come after it in the input. */
  function Insert(x: Record, ys: seq<Record>): (r: seq<Record>)
    ensures multiset(r) == multiset(ys) + multiset{x}
  {
    if |ys| == 0 || x.id >= ys[0].id then [x] + ys
    else
      assert ys == [ys[0]] + ys[1..];
      [ys[0]] + Insert(x, ys[1..])
  }

  lemma {:induction false} InsertKeepsSorted(x: Record, ys: seq<Record>)
    requires SortedByIdDesc(ys)
    ensures SortedByIdDesc(Insert(x, ys))
    decreases |ys|
  {
    var r := Insert(x, ys);
    if |ys| == 0 || x.id >= ys[0].id {
      assert r == [x] + ys;
    } else {
      var rest := Insert(x, ys[1..]);
      InsertKeepsSorted(x, ys[1..]);
      assert r == [ys[0]] + rest;
      assert rest[0].id <= ys[0].id by {
        var t := ys[1..];
        if |t| == 0 || x.id >= t[0].id {
          assert rest[0] == x;
        } else {
          assert rest[0] == t[0] == ys[1];
        }
      }
      forall j | 0 < j < |r| ensures r[0].id >= r[j].id {
        assert j == 1 || rest[0].id >= rest[j - 1].id;
      }
    }
  }

  /** The block of `id` in a sequence with a known first record. */
  lemma WithIdCons(y: Record, zs: seq<Record>, id: int)
    ensures WithId([y] + zs, id) == (if y.id == id then [y] else []) + WithId(zs, id)
  {
    assert ([y] + zs)[0] == y && ([y] + zs)[1..] == zs;
  }

  lemma {:induction false} InsertIsStable(x: Record, ys: seq<Record>, id: int)
    requires SortedByIdDesc(ys)
    ensures WithId(Insert(x, ys), id) == (if x.id == id then [x] else []) + WithId(ys, id)
    decreases |ys|
  {
    if |ys| == 0 || x.id >= ys[0].id {
      assert Insert(x, ys) == [x] + ys;
      WithIdCons(x, ys, id);
    } else {
      var rest := Insert(x, ys[1..]);
      assert Insert(x, ys) == [ys[0]] + rest;
      assert ys == [ys[0]] + ys[1..];
      InsertIsStable(x, ys[1..], id);
      WithIdCons(ys[0], rest, id);
      WithIdCons(ys[0], ys[1..], id);
      var w := WithId(ys[1..], id);
      if ys[0].id == id {
        assert WithId(rest, id) == w;
        assert WithId(Insert(x, ys), id) == [ys[0]] + w == WithId(ys, id);
      } else {
        assert WithId(Insert(x, ys), id) == WithId(rest, id);
        assert WithId(ys, id) == w;
      }
    }
  }


  /** The newest-first sort of the listing (script.js:93), comparing ids:
      an insertion sort that is stable, as the language's sort is. */
  function SortByIdDesc(xs: seq<Record>): (r: seq<Record>)
    ensures |r| == |xs|
    ensures multiset(r) == multiset(xs)
    ensures StableSortOf(r, xs)
  {
    if |xs| == 0 then []
    else
      var rest := SortByIdDesc(xs[1..]);
      var r := Insert(xs[0], rest);
      InsertKeepsSorted(xs[0], rest);
      assert xs == [xs[0]] + xs[1..];
      assert |r| == |multiset(r)|;
      assert forall id :: WithId(r, id) == WithId(xs, id) by {
        forall id ensures WithId(r, id) == WithId(xs, id) {
          InsertIsStable(xs[0], rest, id);
        }
      }
      r
  }

  lemma WithIdNonEmpty(xs: seq<Record>, id: int)
    requires WithId(xs, id) != []
    ensures exists i :: 0 <= i < |xs| && xs[i].id == id
  {
    var r := WithId(xs, id)[0];
    assert r in WithId(xs, id);
  }

  lemma SameBlocksSameEmptiness(a: seq<Record>, b: seq<Record>)
    requires forall id :: WithId(a, id) == WithId(b, id)
    ensures |a| == 0 <==> |b| == 0
  {
    if |a| > 0 {
      WithIdNonEmpty(b, a[0].id);
    }
    if |b| > 0 {
      WithIdNonEmpty(a, b[0].id);
    }
  }

  /** Dropping the first record drops it from its own block only. */
  lemma WithIdTail(xs: seq<Record>, id: int)
    requires |xs| > 0
    ensures WithId(xs[1..], id) == if xs[0].id == id then WithId(xs, id)[1..] else WithId(xs, id)
  {
  }

  /** Two sorted arrangements with the same blocks start with the same
      record: the first record of the block of the largest id. */
  lemma SortedHeadsAgree(a: seq<Record>, b: seq<Record>)
    requires SortedByIdDesc(a) && SortedByIdDesc(b) && |a| > 0 && |b| > 0
    requires forall id :: WithId(a, id) == WithId(b, id)
    ensures a[0] == b[0]
  {
    var m, n := a[0].id, b[0].id;
    WithIdNonEmpty(b, m);
    WithIdNonEmpty(a, n);
    assert m == n;
    assert a[0] == WithId(a, m)[0] == WithId(b, m)[0] == b[0];
  }

  lemma {:induction false} StableSortUnique(a: seq<Record>, b: seq<Record>)
    requires SortedByIdDesc(a) && SortedByIdDesc(b)
    requires forall id :: WithId(a, id) == WithId(b, id)
    ensures a == b
    decreases |a| + |b|
  {
    SameBlocksSameEmptiness(a, b);
    if |a| == 0 {
      return;
    }
    SortedHeadsAgree(a, b);
    forall id ensures WithId(a[1..], id) == WithId(b[1..], id) {
      WithIdTail(a, id);
      WithIdTail(b, id);
    }
    StableSortUnique(a[1..], b[1..]);
    assert a == [a[0]] + a[1..];
    assert b == [b[0]] + b[1..];
  }

  /** Any stable newest-first arrangement of `xs` is the one the listing
      shows: the order of the display is fully determined by the ids and
      the input order. */
  lemma SortIsTheStableSort(xs: seq<Record>, ys: seq<Record>)
    requires StableSortOf(ys, xs)
    ensures ys == SortByIdDesc(xs)
  {
    var r := SortByIdDesc(xs);
    StableSortUnique(ys, r);
  }

  /** What `displayFeedback` renders for a given array: nothing when it is
      empty (script.js:83-90), otherwise the array sorted newest first. */
  function Display(xs: seq<Record>): (shown: seq<Record>)
    ensures multiset(shown) == multiset(xs)
    ensures StableSortOf(shown, xs)
  {
    if |xs| == 0 then [] else SortByIdDesc(xs)
  }
}

=== FILE: records.dfy ===
/** Feedback records and the small vocabulary shared by the listing, the
    analytics and the store. */
module Records {

  /** The conventional Some/None datatype; `None` stands for an absent value
      (an unset filter, a storage key that does not exist). */
  datatype Option<+T> = None | Some(value: T)

  /** One submitted feedback entry (script.js:41-47). `id` is the submission
      clock in milliseconds and `date` its ISO-8601 rendering; neither is
      checked for uniqueness by the widget. */
  datatype Record = Record(
    id: int,
    serviceType: string,
    rating: int,
    comments: string,
    date: string)

  /** Lowest and highest rating a star can select. */
  const MinRating: int := 1
  const MaxRating: int := 5

  predicate ValidRating(rating: int) {
    MinRating <= rating <= MaxRating
  }

  /** Every record carries a rating a star could have produced. */
  predicate AllRatingsValid(xs: seq<Record>) {
    forall i :: 0 <= i < |xs| ==> ValidRating(xs[i].rating)
  }

  /** The service categories of `xs`, in record order. */
  function ServicesOf(xs: seq<Record>): (ss: seq<string>)
    ensures |ss| == |xs|
    ensures forall i :: 0 <= i < |xs| ==> ss[i] == xs[i].serviceType
  {
    seq(|xs|, i requires 0 <= i < |xs| => xs[i].serviceType)
  }

  /** The ratings of `xs`, in record order. */
  function RatingsOf(xs: seq<Record>): (rs: seq<int>)
    ensures |rs| == |xs|
    ensures forall i :: 0 <= i < |xs| ==> rs[i] == xs[i].rating
  {
    seq(|xs|, i requires 0 <= i < |xs| => xs[i].rating)
  }

  /** How many records of `xs` belong to service `svc`. */
  function Occurrences(xs: seq<Record>, svc: string): nat {
    multiset(ServicesOf(xs))[svc]
  }

  /** How many records of `xs` carry exactly the rating `rating`. */
  function RatingCount(xs: seq<Record>, rating: int): nat {
    multiset(RatingsOf(xs))[rating]
  }

  lemma ServicesOfAppend(xs: seq<Record>, x: Record)
    ensures ServicesOf(xs + [x]) == ServicesOf(xs) + [x.serviceType]
  {
    assert ServicesOf(xs + [x]) == ServicesOf(xs) + [x.serviceType];
  }

  lemma RatingsOfAppend(xs: seq<Record>, x: Record)
    ensures RatingsOf(xs + [x]) == RatingsOf(xs) + [x.rating]
  {
    assert RatingsOf(xs + [x]) == RatingsOf(xs) + [x.rating];
  }
}

=== FILE: scenarios.dfy ===
/** Concrete sessions of the widget, worked through the model. */
module Scenarios {
  import opened Records
  import Listing
  import Analytics
  import Store

  lemma SortOne(x: Record)
    ensures Listing.SortByIdDesc([x]) == [x]
  {
    assert [x][1..] == [];
    assert Listing.Insert(x, []) == [x];
  }

  /** A record no older than the head goes in front. */
  lemma InsertFront(x: Record, ys: seq<Record>)
    requires |ys| == 0 || x.id >= ys[0].id
    ensures Listing.Insert(x, ys) == [x] + ys
  {
  }

  /** A record older than the head goes past it. */
  lemma InsertPast(x: Record, ys: seq<Record>)
    requires |ys| > 0 && x.id < ys[0].id
    ensures Listing.Insert(x, ys) == [ys[0]] + Listing.Insert(x, ys[1..])
  {
  }

  lemma InsertSecond(x: Record, y: Record, rest: seq<Record>)
    requires x.id < y.id && (|rest| == 0 || x.id >= rest[0].id)
    ensures Listing.Insert(x, [y] + rest) == [y, x] + rest
  {
    var ys := [y] + rest;
    assert ys[0] == y && ys[1..] == rest;
    InsertFront(x, rest);
    InsertPast(x, ys);
    assert [y] + ([x] + rest) == [y, x] + rest;
  }

  lemma SortOfTwo(a: Record, b: Record)
    requires a.id < b.id
    ensures Listing.SortByIdDesc([a, b]) == [b, a]
  {
    assert [a, b][1..] == [b];
    SortOne(b);
    InsertSecond(a, b, []);
  }

  lemma SortsOfThreeSubmits(a: Record, b: Record, c: Record)
    requires a.id < b.id < c.id
    ensures Listing.SortByIdDesc([a, b]) == [b, a]
    ensures Listing.SortByIdDesc([b, a, c]) == [c, b, a]
  {
    SortOfTwo(a, b);
    assert [a, c][1..] == [c];
    SortOne(c);
    InsertSecond(a, c, []);
    assert [b, a, c][1..] == [a, c];
    InsertSecond(b, c, [a]);
  }

  /** Three submits: "Support" with five stars, "Sales" with three, "Support"
      with four, at clock values 1000, 2000 and 3000. */
  const ThreeSubmits: seq<Store.Event> := [
    Store.StarClicked(5), Store.FormSubmitted(Store.Form("Support", ""), 1000, "t1"),
    Store.StarClicked(3), Store.FormSubmitted(Store.Form("Sales", ""), 2000, "t2"),
    Store.StarClicked(4), Store.FormSubmitted(Store.Form("Support", ""), 3000, "t3")
  ]

  lemma {:induction false} RunConcat(s: Store.State, xs: seq<Store.Event>, ys: seq<Store.Event>)
    ensures Store.Run(s, xs + ys) == Store.Run(Store.Run(s, xs), ys)
    decreases |xs|
  {
    if |xs| > 0 {
      assert (xs + ys)[0] == xs[0];
      assert (xs + ys)[1..] == xs[1..] + ys;
      RunConcat(Store.Step(s, xs[0]), xs[1..], ys);
      assert Store.Run(s, xs + ys) == Store.Run(Store.Step(s, xs[0]), xs[1..] + ys);
      assert Store.Run(s, xs) == Store.Run(Store.Step(s, xs[0]), xs[1..]);
    } else {
      assert xs + ys == ys;
    }
  }

  /** Selecting a star and submitting appends the record, stores the
      collection and then lists it. */
  lemma ClickThenSubmit(s: Store.State, star: int, form: Store.Form, now: int, isoDate: string)
    requires star != 0
    ensures var data := s.data + [Record(now, form.serviceType, star, form.comments, isoDate)];
      Store.Run(s, [Store.StarClicked(star), Store.FormSubmitted(form, now, isoDate)])
        == Store.State(Listing.SortByIdDesc(data), Some(data), 0)
  {
    var e := [Store.StarClicked(star), Store.FormSubmitted(form, now, isoDate)];
    var s1 := Store.ClickStar(s, star);
    assert e[1..] == [e[1]] && e[1..][1..] == [];
    assert Store.Run(s, e) == Store.Run(s1, [e[1]]);
    var data := s.data + [Record(now, form.serviceType, star, form.comments, isoDate)];
    assert Store.Submit(s1, form, now, isoDate) == Store.State(data, Some(data), 0);
    assert Store.Run(s1, [e[1]]) == Store.Run(Store.HandleSubmit(s1, form, now, isoDate), []);
  }

  /** The two events by which a user submits record `r`: its star, then the
      form carrying its service, comments and clock. */
  function SubmitEvents(r: Record): seq<Store.Event> {
    [Store.StarClicked(r.rating), Store.FormSubmitted(Store.Form(r.serviceType, r.comments), r.id, r.date)]
  }

  lemma FirstSubmit(a: Record)
    requires a.rating != 0
    ensures Store.Run(Store.State([], None, 0), SubmitEvents(a)) == Store.State([a], Some([a]), 0)
  {
    assert Record(a.id, a.serviceType, a.rating, a.comments, a.date) == a;
    ClickThenSubmit(Store.State([], None, 0), a.rating, Store.Form(a.serviceType, a.comments), a.id, a.date);
    assert [] + [a] == [a];
    SortOne(a);
  }

  lemma SecondSubmit(a: Record, b: Record)
    requires a.id < b.id && b.rating != 0
    ensures Store.Run(Store.State([a], Some([a]), 0), SubmitEvents(b)) == Store.State([b, a], Some([a, b]), 0)
  {
    assert Record(b.id, b.serviceType, b.rating, b.comments, b.date) == b;
    assert [a] + [b] == [a, b];
    ClickThenSubmit(Store.State([a], Some([a]), 0), b.rating, Store.Form(b.serviceType, b.comments), b.id, b.date);
    SortOfTwo(a, b);
  }

  lemma ThirdSubmit(a: Record, b: Record, c: Record)
    requires a.id < b.id < c.id && c.rating != 0
    ensures Store.Run(Store.State([b, a], Some([a, b]), 0), SubmitEvents(c)) == Store.State([c, b, a], Some([b, a, c]), 0)
  {
    assert Record(c.id, c.serviceType, c.rating, c.comments, c.date) == c;
    assert [b, a] + [c] == [b, a, c];
    ClickThenSubmit(Store.State([b, a], Some([a, b]), 0), c.rating, Store.Form(c.serviceType, c.comments), c.id, c.date);
    SortsOfThreeSubmits(a, b, c);
  }

  /** Any three submits with increasing clocks, from an empty store. */
  lemma {:induction false} ThreeSubmitsInOrder(a: Record, b: Record, c: Record)
    requires a.id < b.id < c.id && a.rating != 0 && b.rating != 0 && c.rating != 0
    ensures Store.Run(Store.Boot(None), SubmitEvents(a) + SubmitEvents(b) + SubmitEvents(c))
         == Store.State([c, b, a], Some([b, a, c]), 0)
  {
    assert Store.Boot(None) == Store.State([], None, 0);
    RunConcat(Store.Boot(None), SubmitEvents(a) + SubmitEvents(b), SubmitEvents(c));
    RunConcat(Store.Boot(None), SubmitEvents(a), SubmitEvents(b));
    FirstSubmit(a);
    SecondSubmit(a, b);
    ThirdSubmit(a, b, c);
  }

  /** The page lists newest first and has reordered its live collection.
      The stored copy is the live collection as it stood at the last submit:
      the first two records already reordered by the listing that followed
      the second submit, then the third. */
  lemma ThreeSubmitsFromEmpty(a: Record, b: Record, c: Record)
    requires a == Record(1000, "Support", 5, "", "t1")
    requires b == Record(2000, "Sales", 3, "", "t2")
    requires c == Record(3000, "Support", 4, "", "t3")
    ensures Store.Run(Store.Boot(None), ThreeSubmits) == Store.State([c, b, a], Some([b, a, c]), 0)
  {
    assert ThreeSubmits == SubmitEvents(a) + SubmitEvents(b) + SubmitEvents(c);
    ThreeSubmitsInOrder(a, b, c);
  }

  lemma TallyOfThree(a: Record, b: Record, c: Record)
    requires a.serviceType == c.serviceType != b.serviceType
    ensures Analytics.ServiceCounts([c, b, a])
         == [Analytics.Tally(c.serviceType, 2), Analytics.Tally(b.serviceType, 1)]
  {
    assert [c, b, a][..2] == [c, b] && [c, b][..1] == [c] && [c][..0] == [];
    assert Analytics.ServiceCounts([c]) == [Analytics.Tally(c.serviceType, 1)];
    assert Analytics.ServiceCounts([c, b]) == [Analytics.Tally(c.serviceType, 1), Analytics.Tally(b.serviceType, 1)];
  }

  lemma RatingsOfThree(a: Record, b: Record, c: Record)
    requires a.rating == 5 && b.rating == 3 && c.rating == 4
    ensures Analytics.RatingSum([c, b, a]) == 12
    ensures Analytics.Histogram([c, b, a]) == [0, 0, 1, 1, 1]
  {
    assert [c, b, a][..2] == [c, b] && [c, b][..1] == [c] && [c][..0] == [];
    assert Analytics.RatingSum([c]) == 4;
    assert Analytics.RatingSum([c, b]) == 7;
    assert Analytics.Histogram([c]) == [0, 0, 0, 1, 0];
    assert Analytics.Histogram([c, b]) == [0, 0, 1, 1, 0];
  }

  lemma ServiceListingOfThree(a: Record, b: Record, c: Record)
    requires a.serviceType == c.serviceType != b.serviceType && c.serviceType != ""
    requires a.id < c.id
    ensures Listing.Display(Listing.FilterFeedback([c, b, a], c.serviceType, None)) == [c, a]
  {
    assert [c, b, a][1..] == [b, a] && [b, a][1..] == [a] && [a][1..] == [];
    assert Listing.OfService([a], c.serviceType) == [a];
    assert Listing.OfService([b, a], c.serviceType) == [a];
    assert Listing.FilterFeedback([c, b, a], c.serviceType, None) == [c, a];
    SortOne(a);
    InsertSecond(a, c, []);
    assert [c, a][1..] == [a];
  }

  /** The analytics and the "Support" listing of that page: three records,
      a rating sum of 12 (average 4.0), "Support" on top with two records
      against one, the histogram [0, 0, 1, 1, 1], and the two Support
      records listed newest first. */
  lemma AnalyticsOfThreeSubmits(a: Record, b: Record, c: Record)
    requires a == Record(1000, "Support", 5, "", "t1")
    requires b == Record(2000, "Sales", 3, "", "t2")
    requires c == Record(3000, "Support", 4, "", "t3")
    ensures Analytics.Summarize([c, b, a]) == Analytics.Summary(3, Analytics.Mean(12, 3), "Support")
    ensures Analytics.ServiceCounts([c, b, a]) == [Analytics.Tally("Support", 2), Analytics.Tally("Sales", 1)]
    ensures Analytics.Histogram([c, b, a]) == [0, 0, 1, 1, 1]
    ensures Listing.Display(Listing.FilterFeedback([c, b, a], "Support", None)) == [c, a]
  {
    TallyOfThree(a, b, c);
    RatingsOfThree(a, b, c);
    ServiceListingOfThree(a, b, c);
    var t := Analytics.ServiceCounts([c, b, a]);
    assert t[..1] == [t[0]];
    assert Analytics.TopIndex(t) == 0;
  }

  lemma TallyOfTwo(a: Record, b: Record)
    requires a.serviceType != b.serviceType
    ensures Analytics.ServiceCounts([b, a]) == [Analytics.Tally(b.serviceType, 1), Analytics.Tally(a.serviceType, 1)]
  {
    assert [b, a][..1] == [b] && [b][..0] == [];
    assert Analytics.ServiceCounts([b]) == [Analytics.Tally(b.serviceType, 1)];
  }

  lemma {:induction false} TwoSubmitsInOrder(a: Record, b: Record)
    requires a.id < b.id && a.rating != 0 && b.rating != 0
    ensures Store.Run(Store.Boot(None), SubmitEvents(a) + SubmitEvents(b)) == Store.State([b, a], Some([a, b]), 0)
  {
    assert Store.Boot(None) == Store.State([], None, 0);
    RunConcat(Store.Boot(None), SubmitEvents(a), SubmitEvents(b));
    FirstSubmit(a);
    SecondSubmit(a, b);
  }

  /** Two submits of different services, one record each. The listing after
      the second submit puts the newer record first, so the tally meets the
      newer service first; the strict comparison then hands the tie to the
      older service, the one submitted first. */
  lemma TieGoesToFirstSubmitted(a: Record, b: Record)
    requires a.id < b.id && a.rating != 0 && b.rating != 0
    requires a.serviceType != b.serviceType
    ensures Store.Run(Store.Boot(None), SubmitEvents(a) + SubmitEvents(b)).data == [b, a]
    ensures Analytics.Summarize([b, a]).topService == a.serviceType
  {
    TwoSubmitsInOrder(a, b);
    TallyOfTwo(a, b);
    var c := Analytics.ServiceCounts([b, a]);
    assert c[..1] == [c[0]];
    assert Analytics.TopIndex(c) == 1;
  }
}

=== FILE: stars.dfy ===
/** The star widget's highlight (`updateStars`, script.js:22-26, and the
    hover handler, script.js:12-17): star `i` (counted from 0) is lit exactly
    when `i` is below the selected or hovered rating. */
module Stars {

  /** Which of `starCount` stars are lit for `level`. */
  function StarMask(level: int, starCount: nat): (mask: seq<bool>)
    ensures |mask| == starCount
    ensures forall i, j :: 0 <= i < j < starCount && mask[j] ==> mask[i]
  {
    seq(starCount, i requires 0 <= i < starCount => i < level)
  }

  /** Number of lit stars. */
  function LitCount(mask: seq<bool>): nat {
    if |mask| == 0 then 0 else LitCount(mask[..|mask| - 1]) + if mask[|mask| - 1] then 1 else 0
  }

  /** Clamps `level` to the stars that exist. */
  function Clamp(level: int, starCount: nat): nat {
    if level < 0 then 0 else if level > starCount then starCount else level
  }

  /** Exactly `level` stars are lit when `level` is a star the row has (and
      none for the cleared selection 0), and they are the leading ones. */
  lemma {:induction false} LitStarsAreLeading(level: int, starCount: nat)
    ensures LitCount(StarMask(level, starCount)) == Clamp(level, starCount)
    ensures forall i :: 0 <= i < starCount ==> (StarMask(level, starCount)[i] <==> i < level)
    decreases starCount
  {
    if starCount > 0 {
      LitStarsAreLeading(level, starCount - 1);
      assert StarMask(level, starCount)[..starCount - 1] == StarMask(level, starCount - 1);
    }
  }
}

=== FILE: store.dfy ===
/** The page state of the feedback widget and the transitions its handlers
    apply to it: start-up load, star selection, submit, confirmed clear, and
    the listing views, some of which reorder the live collection in place. */
module Store {
  import opened Records
  import Listing

  /** The live collection `feedbackData`, the stored copy under the storage
      key (`None` when the key is absent) and the star currently selected
      (0 for none). */
  datatype State = State(data: seq<Record>, mirror: Option<seq<Record>>, selectedRating: int)

  /** The two form fields read on submit. */
  datatype Form = Form(serviceType: string, comments: string)

  /** Reading the storage key at start-up (script.js:1): an absent key reads
      as null, which the fallback replaces by the empty collection. */
  function Load(stored: Option<seq<Record>>): (xs: seq<Record>)
    ensures stored.None? ==> xs == []
    ensures stored.Some? ==> xs == stored.value
  {
    match stored
    case None => []
    case Some(xs) => xs
  }

  /** Page start (script.js:1-2): the collection as loaded, no star
      selected. */
  function Start(stored: Option<seq<Record>>): (s: State)
    ensures s.mirror == stored && s.selectedRating == 0
    ensures stored.None? ==> s.data == []
    ensures stored.Some? ==> s.data == stored.value
  {
    State(Load(stored), stored, 0)
  }

  /** A click on a star (script.js:7) selects that star's rating. */
  function ClickStar(s: State, star: int): (t: State)
    ensures t.selectedRating == star
    ensures t.data == s.data && t.mirror == s.mirror
  {
    s.(selectedRating := star)
  }

  /** The record a submit creates: the clock value as id, the form fields,
      the selected rating and the ISO rendering of the clock. */
  function NewRecord(s: State, form: Form, now: int, isoDate: string): Record {
    Record(now, form.serviceType, s.selectedRating, form.comments, isoDate)
  }

  /** The store part of the submit handler (script.js:31-50, 62): with no
      star selected nothing changes; otherwise one record is appended, the
      whole collection is written to storage and the selection is
      cleared. */
  function Submit(s: State, form: Form, now: int, isoDate: string): (t: State)
    ensures s.selectedRating == 0 ==> t == s
    ensures s.selectedRating != 0 ==>
      && |t.data| == |s.data| + 1
      && t.data[..|s.data|] == s.data
      && t.data[|s.data|] == NewRecord(s, form, now, isoDate)
      && t.mirror == Some(t.data)
      && t.selectedRating == 0
  {
    if s.selectedRating == 0 then s
    else
      var data := s.data + [NewRecord(s, form, now, isoDate)];
      State(data, Some(data), 0)
  }

  /** `clearData` (script.js:122-140): on confirmation the collection is
      emptied and the storage key removed; a dismissed dialog changes
      nothing. */
  function ClearData(s: State, confirmed: bool): (t: State)
    ensures confirmed ==> t.data == [] && t.mirror.None? && t.selectedRating == s.selectedRating
    ensures !confirmed ==> t == s
  {
    if confirmed then State([], None, s.selectedRating) else s
  }

  /** A rendered listing together with the state after rendering. */
  datatype Shown = Shown(state: State, listing: seq<Record>)

  /** `displayFeedback()` with its default argument: the live collection is
      sorted in place, newest first, and that array is what is listed. An
      empty collection returns before the sort (script.js:83-90). */
  function ShowAll(s: State): (r: Shown)
    ensures r.listing == r.state.data
    ensures Listing.StableSortOf(r.state.data, s.data)
    ensures multiset(r.state.data) == multiset(s.data)
    ensures r.state.mirror == s.mirror && r.state.selectedRating == s.selectedRating
  {
    if |s.data| == 0 then Shown(s, [])
    else
      var sorted := Listing.SortByIdDesc(s.data);
      Shown(s.(data := sorted), sorted)
  }

  /** `filterFeedback` (script.js:110-119). With neither filter set the live
      array itself is passed to `displayFeedback`, which sorts it in place;
      otherwise a filtered copy is sorted and the state is untouched. */
  function ApplyFilters(s: State, serviceFilter: string, ratingFilter: Option<int>): (r: Shown)
    ensures Listing.StableSortOf(r.listing, Listing.Where(s.data, serviceFilter, ratingFilter))
    ensures multiset(r.state.data) == multiset(s.data)
    ensures r.state.mirror == s.mirror && r.state.selectedRating == s.selectedRating
    ensures !Listing.NoFilter(serviceFilter, ratingFilter) ==> r.state == s
    ensures Listing.NoFilter(serviceFilter, ratingFilter) ==> r.state.data == r.listing
  {
    Listing.FilterIsConjunction(s.data, serviceFilter, ratingFilter);
    if Listing.NoFilter(serviceFilter, ratingFilter) then
      Listing.WhereWithoutFilters(s.data);
      ShowAll(s)
    else Shown(s, Listing.Display(Listing.FilterFeedback(s.data, serviceFilter, ratingFilter)))
  }

  /** The whole submit handler (script.js:28-66): a rejected submit returns
      before anything else; an accepted one stores the collection and then
      lists it, which reorders the live collection but not the stored
      copy. */
  function HandleSubmit(s: State, form: Form, now: int, isoDate: string): (t: State)
    ensures s.selectedRating == 0 ==> t == s
    ensures s.selectedRating != 0 ==>
      && t.mirror == Some(s.data + [NewRecord(s, form, now, isoDate)])
      && Listing.StableSortOf(t.data, s.data + [NewRecord(s, form, now, isoDate)])
      && t.selectedRating == 0
  {
    if s.selectedRating == 0 then s else ShowAll(Submit(s, form, now, isoDate)).state
  }

  /** The page after start-up: loaded, then listed (script.js:1-2, 227), which
      already reorders the loaded collection newest first. */
  function Boot(stored: Option<seq<Record>>): (s: State)
    ensures s.mirror == stored && s.selectedRating == 0
    ensures Listing.StableSortOf(s.data, Load(stored))
    ensures multiset(s.data) == multiset(Load(stored))
  {
    ShowAll(Start(stored)).state
  }

  /** The user actions that reach the store. */
  datatype Event =
    | StarClicked(star: int)
    | FormSubmitted(form: Form, now: int, isoDate: string)
    | ClearRequested(confirmed: bool)
    | FiltersApplied(serviceFilter: string, ratingFilter: Option<int>)
    | TabSwitched(tabName: string)

  /** `switchTab` (script.js:69-78) lists the collection when the listing tab
      opens; the analytics tab only reads it. */
  function Step(s: State, e: Event): (t: State)
    ensures !e.FormSubmitted? && !e.ClearRequested? ==>
      t.mirror == s.mirror && multiset(t.data) == multiset(s.data)
    ensures e.StarClicked? ==> t == s.(selectedRating := e.star)
    ensures e.TabSwitched? && e.tabName != "listing" ==> t == s
    ensures e.TabSwitched? && e.tabName == "listing" ==>
      Listing.StableSortOf(t.data, s.data) && t.selectedRating == s.selectedRating
  {
    match e
    case StarClicked(star) => ClickStar(s, star)
    case FormSubmitted(form, now, isoDate) => HandleSubmit(s, form, now, isoDate)
    case ClearRequested(confirmed) => ClearData(s, confirmed)
    case FiltersApplied(sf, rf) => ApplyFilters(s, sf, rf).state
    case TabSwitched(tabName) => if tabName == "listing" then ShowAll(s).state else s
  }

  function Run(s: State, events: seq<Event>): State
    decreases |events|
  {
    if |events| == 0 then s else Run(Step(s, events[0]), events[1..])
  }

  /** The live collection and the stored copy hold the same records, though
      not necessarily in the same order: listing reorders only the live
      one. */
  ghost predicate MirrorAgrees(s: State) {
    multiset(s.data) == multiset(Load(s.mirror))
  }

  /** A page that starts from any stored copy agrees with it. */
  lemma BootAgrees(stored: Option<seq<Record>>)
    ensures MirrorAgrees(Boot(stored))
  {
  }

  lemma StepKeepsMirrorAgreement(s: State, e: Event)
    requires MirrorAgrees(s)
    ensures MirrorAgrees(Step(s, e))
  {
    match e
    case FormSubmitted(form, now, isoDate) =>
      if s.selectedRating != 0 {
        var t := Submit(s, form, now, isoDate);
        assert t.data == s.data + [NewRecord(s, form, now, isoDate)];
      }
    case _ =>
  }

  /** Every sequence of user actions keeps the live collection and the
      stored copy in agreement. */
  lemma {:induction false} RunKeepsMirrorAgreement(s: State, events: seq<Event>)
    requires MirrorAgrees(s)
    ensures MirrorAgrees(Run(s, events))
    decreases |events|
  {
    if |events| > 0 {
      StepKeepsMirrorAgreement(s, events[0]);
      RunKeepsMirrorAgreement(Step(s, events[0]), events[1..]);
    }
  }

  /** Every record and the selection carry a rating a star can produce. */
  ghost predicate RatingsValid(s: State) {
    && AllRatingsValid(s.data)
    && AllRatingsValid(Load(s.mirror))
    && (s.selectedRating == 0 || ValidRating(s.selectedRating))
  }

  /** Clicks only ever come from the five stars. */
  predicate FromStars(e: Event) {
    e.StarClicked? ==> ValidRating(e.star)
  }

  lemma PermutedRatingsValid(xs: seq<Record>, ys: seq<Record>)
    requires AllRatingsValid(xs) && multiset(ys) == multiset(xs)
    ensures AllRatingsValid(ys)
  {
    forall i | 0 <= i < |ys| ensures ValidRating(ys[i].rating) {
      assert ys[i] in multiset(xs);
    }
  }

  lemma StepKeepsRatingsValid(s: State, e: Event)
    requires RatingsValid(s) && FromStars(e)
    ensures RatingsValid(Step(s, e))
  {
    match e
    case FormSubmitted(form, now, isoDate) =>
      SubmitKeepsRatingsValid(s, form, now, isoDate);
    case FiltersApplied(sf, rf) =>
      PermutedRatingsValid(s.data, Step(s, e).data);
    case TabSwitched(tabName) =>
      PermutedRatingsValid(s.data, Step(s, e).data);
    case _ =>
  }

  lemma SubmitKeepsRatingsValid(s: State, form: Form, now: int, isoDate: string)
    requires RatingsValid(s)
    ensures RatingsValid(HandleSubmit(s, form, now, isoDate))
  {
    if s.selectedRating != 0 {
      var u := Submit(s, form, now, isoDate);
      assert u.data == s.data + [NewRecord(s, form, now, isoDate)];
      assert AllRatingsValid(u.data);
      PermutedRatingsValid(u.data, HandleSubmit(s, form, now, isoDate).data);
    }
  }

  /** A page that starts from stored records rated 1..5 starts with valid
      ratings: the initial listing only reorders them. */
  lemma BootRatingsValid(stored: Option<seq<Record>>)
    requires AllRatingsValid(Load(stored))
    ensures RatingsValid(Boot(stored))
  {
    PermutedRatingsValid(Load(stored), Boot(stored).data);
  }

  /** When the stored copy and every click are well formed, every record the
      page ever holds has a rating in 1..5; the analytics histogram then
      accounts for every record. */
  lemma {:induction false} RunKeepsRatingsValid(s: State, events: seq<Event>)
    requires RatingsValid(s)
    requires forall i :: 0 <= i < |events| ==> FromStars(events[i])
    ensures RatingsValid(Run(s, events))
    decreases |events|
  {
    if |events| > 0 {
      StepKeepsRatingsValid(s, events[0]);
      RunKeepsRatingsValid(Step(s, events[0]), events[1..]);
    }
  }

  /** After a confirmed clear a reload finds nothing: the key is gone, not
      holding an empty collection. */
  lemma ClearThenReload(s: State)
    ensures ClearData(s, true).mirror == None
    ensures Boot(ClearData(s, true).mirror).data == []
  {
  }

  /** Right after an accepted submit, a reload would see exactly the live
      collection; once the listing that follows has run, the live collection
      is the newest-first stable sort of what was stored. */
  lemma SubmitThenReload(s: State, form: Form, now: int, isoDate: string)
    requires s.selectedRating != 0
    ensures Load(Submit(s, form, now, isoDate).mirror) == Submit(s, form, now, isoDate).data
    ensures Listing.StableSortOf(HandleSubmit(s, form, now, isoDate).data,
                                 Load(HandleSubmit(s, form, now, isoDate).mirror))
  {
  }
}
